=== FILE: README.md ===
# Employee bonus calculator — Dafny model

A model of the calculation inside the employee bonus calculator component
(`src/assets/components/Bonus.tsx`). Stripped of the user interface, the
component is a small pure pipeline:

1. percentage growth of the summed quarterly sales and of the book of
   business, and of each quarter on its own;
2. the dominant growth, the larger of the sales and business figures;
3. an upward scan over tiers 1 to 4 of the sales-growth thresholds that picks
   a bonus percentage, defaulting to tier 0;
4. a split of that percentage across four categories (retained clients, new
   clients, clients managed, policies) in proportion to the configured
   multipliers, whose sum is the total bonus;
5. the report record.

Around it sit the state transitions: applying one edit from the settings
dialog, clearing the form, clearing the settings, and removing thousands
separators from typed numbers.

All figures are Dafny `real`s. The source divides without guards, so every
denominator it divides by must be non-zero. That covers last year's sales
total and each of its quarters, last year's book of business, and the sum of
the multipliers. These are preconditions (`Form.FormData.GrowthDefined`,
`BonusReport.CanCalculate`).

Modules, one per concern:

- `wrappers.dfy` — `Wrappers`: the `Option` type.
- `growth.dfy` — `GrowthRate`: the growth percentage and its inverse.
- `tiers.dfy` — `Tiers`: the reference tier definition and the source's
  scan loop, proved equal. Also monotonicity, and the fact that threshold 0 is
  ignored.
- `split.dfy` — `Split`: the proportional split and its sum identity.
- `settings.dfy` — `BonusSettings`: the settings record, its defaults, and
  the one-slot edits the settings dialog makes.
- `form.dfy` — `Form`: the form record, the starting figures, and the cleared
  form.
- `numbers.dfy` — `FormattedNumbers`: comma removal. The number parser is a
  parameter.
- `report.dfy` — `BonusReport`: the report, the calculation, and the facts
  about which inputs it reads.
- `calculator.dfy` — `Calculator`: the component's state and its
  transitions. This includes the calculation written step by step, with the
  scan loop.

What the code reads, and what it does not:

- The tier is judged only against the sales-growth thresholds, using
  `max(salesGrowth, businessGrowth)`. The business-growth thresholds are
  never read.
- The configured `totalBonusPercentage` is never read. The tier percentage is
  used in its place.
- Threshold 0 of the sales-growth thresholds is never examined.
- The client and policy counts on the form never reach the report.
- Each category bonus is a percentage: its multiplier's share of the tier
  percentage.
- The code does not require the threshold arrays to be in increasing order.
  The tier is monotone in the growth figure whatever the order. Increasing
  order only matters for "tier k is reached exactly when threshold k is met".

## Model

| member | source | states |
|---|---|---|
| GrowthRate.Growth | src/assets/components/Bonus.tsx:102-104 | growth times the earlier figure is 100 times the change, for any non-zero earlier figure |
| GrowthRate.GrowthRecoversCurrent | src/assets/components/Bonus.tsx:102-104 | the current figure is recovered from the earlier figure and the growth: previous + previous·growth/100 = current |
| GrowthRate.GrowthInjective | src/assets/components/Bonus.tsx:102-104 | two figures with equal growth over the same base are equal |
| GrowthRate.GrowthZeroIff | src/assets/components/Bonus.tsx:102-104 | growth is zero exactly when the figure is unchanged, so a figure against itself gives 0 |
| GrowthRate.GrowthSignIff | src/assets/components/Bonus.tsx:102-104 | over a positive base, growth is positive exactly when the figure rose and negative exactly when it fell |
| GrowthRate.GrowthMonotone | src/assets/components/Bonus.tsx:102-104 | over a positive base, a larger figure never shows smaller growth |
| GrowthRate.GrowthExample | src/assets/components/Bonus.tsx:102-104 | 70000 against 50000 is 40 per cent growth |
| Tiers.Max | src/assets/components/Bonus.tsx:114 | the dominant growth is at least each figure and equal to one of them |
| Tiers.HighestMet | src/assets/components/Bonus.tsx:117-122 | the result is 0 or an index in 1..k whose threshold is met, and every higher index up to k is not met |
| Tiers.TierIndex | src/assets/components/Bonus.tsx:117-122 | the tier is 0 or an index in 1..4 whose threshold the growth meets, and no higher index is met |
| Tiers.SelectBonusPercentage | src/assets/components/Bonus.tsx:117-122 | the upward scan that lets each later met threshold overwrite the choice ends on the reference tier, and returns that tier's bonus percentage |
| Tiers.HighestMetIgnoresFirst | src/assets/components/Bonus.tsx:118-119 | replacing threshold 0 never changes the highest met index |
| Tiers.TierIgnoresFirstThreshold | src/assets/components/Bonus.tsx:118-119 | threshold 0 is never examined: replacing it never changes the tier |
| Tiers.TierMonotone | src/assets/components/Bonus.tsx:117-122 | more growth never gives a lower tier, for thresholds in any order |
| Tiers.PercentageMonotone | src/assets/components/Bonus.tsx:117-122 | with non-decreasing bonus percentages, more growth never pays a lower percentage |
| Tiers.TierOfMax | src/assets/components/Bonus.tsx:114-122 | the tier of the larger of two figures is the larger of their two tiers |
| Tiers.TierReachedIff | src/assets/components/Bonus.tsx:117-122 | with non-decreasing thresholds, tier k in 1..4 is reached exactly when growth meets threshold k |
| Split.Distribute | src/assets/components/Bonus.tsx:128-144 | the four category shares add up exactly to the percentage that was split |
| Split.SharesSum | src/assets/components/Bonus.tsx:128-144 | the four multiplier fractions, each applied to the percentage, add back up to the percentage |
| Split.ShareProportional | src/assets/components/Bonus.tsx:132-135 | each share times the multiplier total equals its multiplier times the percentage |
| Split.ShareBounds | src/assets/components/Bonus.tsx:132-135 | with non-negative multipliers of positive total, each share of a non-negative percentage lies between 0 and the percentage |
| Split.SharesInRatio | src/assets/components/Bonus.tsx:132-135 | any two shares are in the ratio of their multipliers |
| BonusSettings.DefaultsWellFormed | src/assets/components/Bonus.tsx:188-198 | the defaults have five-slot arrays in increasing order and multipliers summing to 4.95, so the calculation is defined under them |
| BonusSettings.ApplyChange | src/assets/components/Bonus.tsx:91-100 | an element edit sets only that slot of the named array, and a scalar edit sets only the named field; every other array, element and field is unchanged |
| BonusSettings.ApplyChangeKeepsWellFormed | src/assets/components/Bonus.tsx:93-96 | an edit never changes an array's length, so five-slot settings keep five slots and calculable settings stay calculable |
| BonusSettings.ApplyCurrentValueIsIdentity | src/assets/components/Bonus.tsx:91-100 | writing back the value a slot already holds leaves the settings unchanged |
| BonusSettings.LastChangeWins | src/assets/components/Bonus.tsx:91-100 | two edits of the same slot amount to the later one |
| BonusSettings.DistinctChangesCommute | src/assets/components/Bonus.tsx:91-100 | edits of different slots give the same settings in either order |
| Form.InitialFormDefined | src/assets/components/Bonus.tsx:29-48 | the starting form has every growth denominator non-zero, with sales totals 500000 and 460000 |
| Form.ClearedFormUndefined | src/assets/components/Bonus.tsx:164-184 | the cleared form has last year's sales total and book of business at zero, so no growth is defined on it |
| FormattedNumbers.StripCommas | src/assets/components/Bonus.tsx:24-26 | the result holds no comma, is shorter by exactly the number of commas, and keeps every other character the same number of times |
| FormattedNumbers.StripCommasAppend | src/assets/components/Bonus.tsx:24-26 | comma removal distributes over concatenation, so the kept characters stay in order |
| FormattedNumbers.StripCommasIdentityIff | src/assets/components/Bonus.tsx:24-26 | text is left unchanged exactly when it holds no comma |
| FormattedNumbers.StripCommasIdempotent | src/assets/components/Bonus.tsx:24-26 | removing commas twice is the same as removing them once |
| FormattedNumbers.ParseFormattedNumber | src/assets/components/Bonus.tsx:24-26 | the value is what the parser reads from the comma-free text, or 0 when the parser finds no number, as the fallback to 0 does |
| FormattedNumbers.ParseIgnoresCommas | src/assets/components/Bonus.tsx:24-26 | for any parser, text reads the same as the text with its commas removed |
| FormattedNumbers.ParseExample | src/assets/components/Bonus.tsx:24-26 | "1,000" reads as "1000", and "1,2,3" reads as "123" |
| BonusReport.SalesGrowth | src/assets/components/Bonus.tsx:107-110 | sales growth times last year's summed quarters is 100 times the change in the summed quarters |
| BonusReport.BusinessGrowth | src/assets/components/Bonus.tsx:111 | business growth times last year's book of business is 100 times the change in the book of business |
| BonusReport.DominantGrowth | src/assets/components/Bonus.tsx:114 | the dominant growth is at least sales growth and business growth, and equals one of them; only last year's sales total and book of business need to be non-zero |
| BonusReport.SelectedTier | src/assets/components/Bonus.tsx:117-122 | the tier is 0 or an index in 1..4 whose sales-growth threshold the dominant growth meets, and no higher index up to 4 is met; it needs only the dominant growth's two denominators and the sales-growth thresholds |
| BonusReport.Calculate | src/assets/components/Bonus.tsx:106-161 | the report carries the form's name. Sales, business and each quarter's growth satisfy the growth equation over their own base, and annual growth equals sales growth. The bonus percentage is that of the tier the dominant growth reaches. The category bonuses are the proportional split of that percentage, and the total bonus equals it. |
| BonusReport.CategoryBonusProportional | src/assets/components/Bonus.tsx:128-141 | each category bonus times the multiplier total equals its multiplier times the tier percentage |
| BonusReport.CategoryBonusBounds | src/assets/components/Bonus.tsx:128-141 | with non-negative multipliers of positive total and non-negative tier percentages, each category bonus lies between 0 and the selected percentage |
| BonusReport.AnnualGrowthIsWeightedMean | src/assets/components/Bonus.tsx:107-160 | annual growth is the mean of the four quarterly growths weighted by last year's quarterly sales |
| BonusReport.CalculateIgnoresUnreadSettings | src/assets/components/Bonus.tsx:114-135 | replacing the business-growth thresholds or the total bonus percentage leaves the report unchanged |
| BonusReport.CalculateIgnoresFirstThreshold | src/assets/components/Bonus.tsx:117-122 | replacing sales-growth threshold 0 leaves the report unchanged |
| BonusReport.CalculateIgnoresCounts | src/assets/components/Bonus.tsx:106-161 | forms that agree on name, sales and book of business give the same report, whatever their client and policy counts |
| BonusReport.TierIsBetterOfBoth | src/assets/components/Bonus.tsx:114-122 | the selected tier is the better of the tiers sales growth and business growth reach on their own, for any form whose sales total and book of business are non-zero |
| BonusReport.MoreGrowthNeverLowerTier | src/assets/components/Bonus.tsx:110-122 | if neither growth figure is lower, the tier is not lower; only the two forms' sales totals and books of business need to be non-zero |
| BonusReport.MoreSalesNeverLowerTier | src/assets/components/Bonus.tsx:107-122 | higher current sales over the same positive last-year total, with the same non-zero book of business, never lower the tier |
| BonusReport.PercentageDependsOnlyOnDominant | src/assets/components/Bonus.tsx:114-122 | equal dominant growth, sales thresholds and bonus percentages give equal bonus percentages |
| BonusReport.InitialReport | src/assets/components/Bonus.tsx:106-144 | the starting form under the default settings reaches tier 2 through business growth, and pays 3 per cent in total |
| Calculator.CalculateBonus | src/assets/components/Bonus.tsx:106-161 | the step-by-step calculation with the scan loop produces exactly the report `Calculate` defines. It leaves the form and settings unchanged, and its total equals its bonus percentage. |
| Calculator.ClearForm | src/assets/components/Bonus.tsx:164-186 | clearing the form keeps the settings, drops the report, empties the name, sets all seventeen figures to zero, and leaves no growth defined |
| Calculator.ClearSettings | src/assets/components/Bonus.tsx:188-198 | clearing the settings keeps the form and the report shown, restores exactly the settings the component starts with, and makes any form with defined growth calculable |
| Calculator.ChangeSettings | src/assets/components/Bonus.tsx:91-100 | a settings edit keeps the form and the report already shown, and the new settings are those `ApplyChange` gives: only the edited slot changes |
| Calculator.UnreadSettingChangesKeepReport | src/assets/components/Bonus.tsx:117-125 | editing a business-growth threshold or the total bonus percentage never changes the next report |
| Calculator.InitialSettingsAreDefaults | src/assets/components/Bonus.tsx:69-78 | the component starts with no report, on exactly the settings that clearing restores, and its starting figures are calculable |
| Form.ZeroedIsCleared | src/assets/components/Bonus.tsx:165-184 | a form with an empty name and all figures zero is the cleared form |
| Calculator.ClearFormForgets | src/assets/components/Bonus.tsx:164-186 | two states with the same settings clear to the same state, whatever figures they held |
| Calculator.ClearSettingsDiscardsEdits | src/assets/components/Bonus.tsx:188-198 | clearing the settings after an edit gives the same state as clearing without it |
| Calculator.ClearsIdempotent | src/assets/components/Bonus.tsx:164-198 | clearing the form twice is clearing it once, and likewise for the settings |

## Left out

- Rendering, React state hooks, dialogs and toasts (src/assets/components/Bonus.tsx:266-746): these are user interface. The state changes are modelled as pure functions on a `Calculator.State` record.
- Saving and loading settings through `localStorage` and `JSON.parse` (src/assets/components/Bonus.tsx:205-236): browser storage and a foreign parser.
- The print window (src/assets/components/Bonus.tsx:238-264): browser I/O.
- `formatNumber` (src/assets/components/Bonus.tsx:20-22) and the `toFixed` display rounding in the report table: locale and presentation, not calculation.
- `handleInputChange` (src/assets/components/Bonus.tsx:83-89) is not part of this model. It stores one typed field, going through `parseFormattedNumber`, whose comma removal is modelled.
- `parseFloat` is a JavaScript builtin. `FormattedNumbers.ParseFormattedNumber` takes it as a parameter, with `None` standing for a result that is not a number. The settings dialog's `parseFloat` is not modelled at all: an edit carries an already-parsed value.
- IEEE-754 behaviour: with a zero denominator the source yields NaN or Infinity, and NaN then flows through `Math.max` and the threshold comparisons. Here those inputs are excluded by preconditions.
- Split.Distribute: the shares sum to the percentage exactly over reals. In double-precision arithmetic they do so only up to rounding.
- BonusSettings.ApplyChange: the edited index must be inside the array. JavaScript would grow the array with holes for a larger index, but the dialog only edits slots that exist.
- BonusSettings.ApplyChange: an edit that gives an index for a scalar field, or none for an array field, cannot be expressed. The dialog never makes such an edit. In the source the first would throw and the second would replace the array with a number.
- BonusReport.Calculate: requires the bonus percentages and the sales-growth thresholds to reach index 4. With shorter arrays, as loaded settings could have, the source reads `undefined`. Longer arrays and business-growth thresholds of any length are allowed, since the calculation never reads them.
- BonusReport.Calculate: also requires every quarter of last year to be non-zero. The source still shows a report when only a quarter is zero, with that quarter's growth shown as NaN or Infinity.

=== FILE: calculator.dfy ===
/** The calculator's state and the transitions the component performs on
    it: calculate, clear the form, clear the settings, change one setting. */
module Calculator {
  import opened Wrappers
  import GrowthRate
  import opened Tiers
  import Split
  import opened Form
  import opened BonusSettings
  import opened BonusReport

  datatype State = State(form: FormData, settings: Settings, report: Option<Report>)

  /** What the component holds when it first renders. */
  const InitialState := State(InitialForm, DefaultSettings, None)

  /** The calculation step by step as the component runs it, with the tier
      chosen by the upward threshold scan. It produces exactly the report
      `Calculate` defines, and reads but never changes the form or settings. */
  method CalculateBonus(st: State) returns (st': State)
    requires CanCalculate(st.form, st.settings)
    ensures st'.form == st.form && st'.settings == st.settings
    ensures st'.report == Some(Calculate(st.form, st.settings))
    ensures st'.report.value.totalBonus == st'.report.value.bonusPercentage
  {
    var f, s := st.form, st.settings;
    var salesGrowth := SalesGrowth(f);
    var businessGrowth := BusinessGrowth(f);
    var dominantGrowth := Max(salesGrowth, businessGrowth);
    var tier, bonusPercentage := SelectBonusPercentage(dominantGrowth, s.salesGrowthThresholds, s.bonusPercentages);
    var shares := Split.Distribute(bonusPercentage, s.Multipliers());
    var totalBonus := shares.retainedClients + shares.newClients + shares.clientsManaged + shares.policies;
    var report := Report(
      f.name, salesGrowth, businessGrowth, bonusPercentage,
      shares.retainedClients, shares.newClients, shares.clientsManaged, shares.policies,
      totalBonus,
      GrowthRate.Growth(f.currentYearQ1Sales, f.lastYearQ1Sales),
      GrowthRate.Growth(f.currentYearQ2Sales, f.lastYearQ2Sales),
      GrowthRate.Growth(f.currentYearQ3Sales, f.lastYearQ3Sales),
      GrowthRate.Growth(f.currentYearQ4Sales, f.lastYearQ4Sales),
      salesGrowth);
    st' := State(f, s, Some(report));
  }

  /** "Clear" on the form: every figure zeroed and the report dropped; the
      settings stay. No calculation is defined on the cleared form. */
  function ClearForm(st: State): (st': State)
    ensures st'.settings == st.settings
    ensures st'.report == None
    ensures st'.form.name == [] && st'.form.Zeroed()
    ensures !st'.form.GrowthDefined()
  {
    State(ClearedForm, st.settings, None)
  }

  /** "Clear" on the settings: defaults restored; the form and any report
      already shown stay as they were. */
  function ClearSettings(st: State): (st': State)
    ensures st'.form == st.form && st'.report == st.report
    ensures st'.settings == InitialState.settings
    ensures st'.settings.WellFormed() && st'.settings.Multipliers().Sum() != 0.0
    ensures st'.form.GrowthDefined() ==> CanCalculate(st'.form, st'.settings)
  {
    State(st.form, DefaultSettings, st.report)
  }

  /** One edit in the settings dialog; the form and any report already shown
      stay as they were. */
  function ChangeSettings(st: State, ch: SettingsChange): (st': State)
    requires Applicable(st.settings, ch)
    ensures st'.form == st.form && st'.report == st.report
    ensures st'.settings == ApplyChange(st.settings, ch)
  {
    State(st.form, ApplyChange(st.settings, ch), st.report)
  }

  /** Editing a business-growth threshold or the total bonus percentage never
      changes what the next calculation produces. */
  lemma UnreadSettingChangesKeepReport(st: State, ch: SettingsChange)
    requires CanCalculate(st.form, st.settings)
    requires Applicable(st.settings, ch)
    requires ch.SetElement? ==> ch.target == BusinessGrowthThresholds
    requires ch.SetScalar? ==> ch.field == TotalBonusPercentage
    ensures var st' := ChangeSettings(st, ch);
            CanCalculate(st'.form, st'.settings) && Calculate(st'.form, st'.settings) == Calculate(st.form, st.settings)
  {
  }

  /** The component starts calculable, with no report, on the settings that
      "clear settings" restores: clearing them at the start changes nothing. */
  lemma InitialSettingsAreDefaults()
    ensures InitialState.report == None
    ensures ClearSettings(InitialState) == InitialState
    ensures CanCalculate(InitialState.form, InitialState.settings)
  {
    InitialFormDefined();
  }

  /** Clearing the form forgets whatever was typed: two states with the same
      settings clear to the same state. */
  lemma ClearFormForgets(st1: State, st2: State)
    requires st1.settings == st2.settings
    ensures ClearForm(st1) == ClearForm(st2)
  {
  }

  /** Clearing the settings discards any edit made before it. */
  lemma ClearSettingsDiscardsEdits(st: State, ch: SettingsChange)
    requires Applicable(st.settings, ch)
    ensures ClearSettings(ChangeSettings(st, ch)) == ClearSettings(st)
  {
  }

  /** Clearing the form twice is clearing it once; likewise for settings. */
  lemma ClearsIdempotent(st: State)
    ensures ClearForm(ClearForm(st)) == ClearForm(st)
    ensures ClearSettings(ClearSettings(st)) == ClearSettings(st)
  {
  }
}

=== FILE: form.dfy ===
/** The employee form: identity, quarterly sales, book of business, and
    the client and policy counts. */
module Form {

  datatype FormData = FormData(
    name: string,
    currentYearQ1Sales: real,
    currentYearQ2Sales: real,
    currentYearQ3Sales: real,
    currentYearQ4Sales: real,
    lastYearQ1Sales: real,
    lastYearQ2Sales: real,
    lastYearQ3Sales: real,
    lastYearQ4Sales: real,
    currentMonthBookOfBusiness: real,
    lastYearSameMonthBookOfBusiness: real,
    retainedClients: real,
    totalRetainedClients: real,
    newClientsEmployee: real,
    totalNewClients: real,
    totalClientsCompany: real,
    numberOfPoliciesEmployee: real,
    totalNumberOfPolicies: real)
  {
    function CurrentYearTotal(): real
    {
      currentYearQ1Sales + currentYearQ2Sales + currentYearQ3Sales + currentYearQ4Sales
    }

    function LastYearTotal(): real
    {
      lastYearQ1Sales + lastYearQ2Sales + lastYearQ3Sales + lastYearQ4Sales
    }

    /** Every figure the bonus calculation divides by is non-zero: the two
        the dominant growth needs, and each of last year's quarters. */
    predicate GrowthDefined()
    {
      && DominantDefined()
      && lastYearQ1Sales != 0.0 && lastYearQ2Sales != 0.0
      && lastYearQ3Sales != 0.0 && lastYearQ4Sales != 0.0
    }

    /** The two figures the dominant growth divides by are non-zero: the
        summed last-year sales and last year's book of business. */
    predicate DominantDefined()
    {
      LastYearTotal() != 0.0 && lastYearSameMonthBookOfBusiness != 0.0
    }

    /** Every one of the seventeen figures is zero. */
    predicate Zeroed()
    {
      && currentYearQ1Sales == 0.0 && currentYearQ2Sales == 0.0
      && currentYearQ3Sales == 0.0 && currentYearQ4Sales == 0.0
      && lastYearQ1Sales == 0.0 && lastYearQ2Sales == 0.0
      && lastYearQ3Sales == 0.0 && lastYearQ4Sales == 0.0
      && currentMonthBookOfBusiness == 0.0 && lastYearSameMonthBookOfBusiness == 0.0
      && retainedClients == 0.0 && totalRetainedClients == 0.0
      && newClientsEmployee == 0.0 && totalNewClients == 0.0
      && totalClientsCompany == 0.0
      && numberOfPoliciesEmployee == 0.0 && totalNumberOfPolicies == 0.0
    }

    /** Two forms agree on everything the bonus calculation reads: the name,
        the eight quarterly sales figures and the two book-of-business values.
        Client and policy counts are not among them. */
    predicate SameCalculationInputs(other: FormData)
    {
      && name == other.name
      && currentYearQ1Sales == other.currentYearQ1Sales
      && currentYearQ2Sales == other.currentYearQ2Sales
      && currentYearQ3Sales == other.currentYearQ3Sales
      && currentYearQ4Sales == other.currentYearQ4Sales
      && lastYearQ1Sales == other.lastYearQ1Sales
      && lastYearQ2Sales == other.lastYearQ2Sales
      && lastYearQ3Sales == other.lastYearQ3Sales
      && lastYearQ4Sales == other.lastYearQ4Sales
      && currentMonthBookOfBusiness == other.currentMonthBookOfBusiness
      && lastYearSameMonthBookOfBusiness == other.lastYearSameMonthBookOfBusiness
    }
  }

  /** The sample figures the form starts with. */
  const InitialForm := FormData(
    "",
    100000.0, 120000.0, 130000.0, 150000.0,
    90000.0, 110000.0, 120000.0, 140000.0,
    2500000.0, 2225000.0,
    50.0, 500.0, 5.0, 20.0, 500.0, 10.0, 27.0)

  /** The form after "clear": empty name, every figure zero. */
  const ClearedForm := FormData([], 0.0, 0.0, 0.0, 0.0, 0.0, 0.0, 0.0, 0.0, 0.0, 0.0, 0.0, 0.0, 0.0, 0.0, 0.0, 0.0, 0.0)

  /** Every growth denominator of the cleared form is zero, so no bonus can be
      calculated from it until figures are entered again. */
  lemma ClearedFormUndefined()
    ensures ClearedForm.LastYearTotal() == 0.0
    ensures ClearedForm.lastYearSameMonthBookOfBusiness == 0.0
    ensures !ClearedForm.GrowthDefined()
  {
  }

  /** Zeroed figures and an empty name determine the form: it is the cleared
      one, whatever was typed before. */
  lemma ZeroedIsCleared(f: FormData)
    requires f.Zeroed() && f.name == []
    ensures f == ClearedForm
  {
  }

  /** The sample form starts with every growth figure defined. */
  lemma InitialFormDefined()
    ensures InitialForm.GrowthDefined()
    ensures InitialForm.CurrentYearTotal() == 500000.0
    ensures InitialForm.LastYearTotal() == 460000.0
  {
  }
}

=== FILE: growth.dfy ===
/** Percentage growth of one figure over an earlier one, as the calculator
    applies it to annual sales, to the book of business and to each quarter. */
module GrowthRate {

  /** Percentage change from `previous` to `current`. The calculator divides
      by `previous` without a guard, so a zero `previous` is excluded here. */
  function Growth(current: real, previous: real): (g: real)
    requires previous != 0.0
    ensures g * previous == (current - previous) * 100.0
  {
    (current - previous) / previous * 100.0
  }

  /** The growth figure is enough to recover the current value: growth is
      injective in `current` for a fixed `previous`. */
  lemma GrowthRecoversCurrent(current: real, previous: real)
    requires previous != 0.0
    ensures previous + previous * Growth(current, previous) / 100.0 == current
  {
  }

  /** Two values with the same growth over the same base are equal. */
  lemma GrowthInjective(c1: real, c2: real, previous: real)
    requires previous != 0.0
    requires Growth(c1, previous) == Growth(c2, previous)
    ensures c1 == c2
  {
  }

  /** A value has zero growth against itself, and only against itself. */
  lemma GrowthZeroIff(current: real, previous: real)
    requires previous != 0.0
    ensures Growth(current, previous) == 0.0 <==> current == previous
  {
  }

  /** Over a positive base, growth is positive exactly when the value rose
      and negative exactly when it fell. */
  lemma GrowthSignIff(current: real, previous: real)
    requires previous > 0.0
    ensures Growth(current, previous) > 0.0 <==> current > previous
    ensures Growth(current, previous) < 0.0 <==> current < previous
  {
  }

  /** Over a positive base, a larger value never shows a smaller growth. */
  lemma GrowthMonotone(c1: real, c2: real, previous: real)
    requires previous > 0.0
    requires c1 <= c2
    ensures Growth(c1, previous) <= Growth(c2, previous)
  {
  }

  /** Sales of 70000 against 50000 the year before are 40 per cent growth. */
  lemma GrowthExample()
    ensures Growth(70000.0, 50000.0) == 40.0
  {
  }
}

=== FILE: numbers.dfy ===
/** Reading a number typed with thousands separators: every comma is
    removed before the text is handed to the number parser. */
module FormattedNumbers {
  import opened Wrappers

  /** How often `c` occurs in `s`. */
  function Count(s: string, c: char): nat
  {
    if s == [] then 0 else (if s[0] == c then 1 else 0) + Count(s[1..], c)
  }

  /** `s` with every comma deleted and the other characters kept in order. */
  function StripCommas(s: string): (r: string)
    ensures forall i :: 0 <= i < |r| ==> r[i] != ','
    ensures |r| + Count(s, ',') == |s|
    ensures forall c :: c != ',' ==> Count(r, c) == Count(s, c)
  {
    if s == [] then []
    else if s[0] == ',' then StripCommas(s[1..])
    else [s[0]] + StripCommas(s[1..])
  }

  /** Stripping distributes over concatenation, so the kept characters keep
      their relative order. */
  lemma {:induction false} StripCommasAppend(a: string, b: string)
    ensures StripCommas(a + b) == StripCommas(a) + StripCommas(b)
    decreases |a|
  {
    if a == [] {
      assert a + b == b;
    } else {
      assert (a + b)[1..] == a[1..] + b;
      StripCommasAppend(a[1..], b);
    }
  }

  /** Text without commas passes through unchanged, and only such text does. */
  lemma {:induction false} StripCommasIdentityIff(s: string)
    ensures StripCommas(s) == s <==> forall i :: 0 <= i < |s| ==> s[i] != ','
    decreases |s|
  {
    if s != [] {
      StripCommasIdentityIff(s[1..]);
      if s[0] == ',' {
        assert |StripCommas(s)| < |s|;
      } else if StripCommas(s) == s {
        assert StripCommas(s[1..]) == s[1..];
      } else {
        assert StripCommas(s[1..]) != s[1..];
        assert exists i :: 0 <= i < |s[1..]| && s[1..][i] == ',';
      }
    }
  }

  /** Stripping twice is the same as stripping once. */
  lemma StripCommasIdempotent(s: string)
    ensures StripCommas(StripCommas(s)) == StripCommas(s)
  {
  }

  /** `parseFloat(text) || 0`: the parser is a parameter (None stands for a
      result that is not a number), and both a failed parse and zero give 0. */
  function ParseFormattedNumber(s: string, parseFloat: string -> Option<real>): (r: real)
    ensures parseFloat(StripCommas(s)) == Some(r) || (parseFloat(StripCommas(s)).None? && r == 0.0)
  {
    match parseFloat(StripCommas(s))
    case None => 0.0
    case Some(v) => v
  }

  /** Thousands separators never change the value read: the text and the
      text with its commas removed read the same, whatever the parser. */
  lemma ParseIgnoresCommas(s: string, parseFloat: string -> Option<real>)
    ensures ParseFormattedNumber(s, parseFloat) == ParseFormattedNumber(StripCommas(s), parseFloat)
  {
    StripCommasIdempotent(s);
  }

  /** Commas anywhere, not only between digit groups, are dropped: "1,2,3"
      reads as "123" does. */
  lemma ParseExample(parseFloat: string -> Option<real>)
    ensures ParseFormattedNumber("1,000", parseFloat) == ParseFormattedNumber("1000", parseFloat)
    ensures ParseFormattedNumber("1,2,3", parseFloat) == ParseFormattedNumber("123", parseFloat)
  {
  }
}

=== FILE: report.dfy ===
/** The bonus calculation: growth figures, the dominant growth, tier
    selection, the proportional split and the report record. */
module BonusReport {
  import opened GrowthRate
  import opened Tiers
  import Split
  import opened Form
  import opened BonusSettings

  datatype Report = Report(
    name: string,
    salesGrowth: real,
    businessGrowth: real,
    bonusPercentage: real,
    retainedClientsBonus: real,
    newClientsBonus: real,
    clientsManagedBonus: real,
    policiesBonus: real,
    totalBonus: real,
    q1Growth: real,
    q2Growth: real,
    q3Growth: real,
    q4Growth: real,
    annualGrowth: real)
  {
    function CategoryBonuses(): Split.PerCategory
    {
      Split.PerCategory(retainedClientsBonus, newClientsBonus, clientsManagedBonus, policiesBonus)
    }
  }

  /** A calculation is defined when no growth figure divides by zero, the
      bonus percentages and sales-growth thresholds reach slot 4, and the
      multipliers do not sum to zero. */
  predicate CanCalculate(f: FormData, s: Settings)
  {
    f.GrowthDefined() && s.Calculable() && s.Multipliers().Sum() != 0.0
  }

  /** Annual sales growth: the four current quarters summed, over the four
      quarters of last year summed. */
  function SalesGrowth(f: FormData): (g: real)
    requires f.LastYearTotal() != 0.0
    ensures g * f.LastYearTotal() == (f.CurrentYearTotal() - f.LastYearTotal()) * 100.0
  {
    Growth(f.CurrentYearTotal(), f.LastYearTotal())
  }

  /** Growth of this month's book of business over the same month last year. */
  function BusinessGrowth(f: FormData): (g: real)
    requires f.lastYearSameMonthBookOfBusiness != 0.0
    ensures g * f.lastYearSameMonthBookOfBusiness
         == (f.currentMonthBookOfBusiness - f.lastYearSameMonthBookOfBusiness) * 100.0
  {
    Growth(f.currentMonthBookOfBusiness, f.lastYearSameMonthBookOfBusiness)
  }

  /** The larger of sales growth and business growth: the one figure the
      tier scan tests. */
  function DominantGrowth(f: FormData): (d: real)
    requires f.DominantDefined()
    ensures d >= SalesGrowth(f) && d >= BusinessGrowth(f)
    ensures d == SalesGrowth(f) || d == BusinessGrowth(f)
  {
    Max(SalesGrowth(f), BusinessGrowth(f))
  }

  /** The bonus tier reached, judged against the sales-growth thresholds only. */
  function SelectedTier(f: FormData, s: Settings): (k: nat)
    requires f.DominantDefined() && |s.salesGrowthThresholds| >= TierCount
    ensures k < TierCount
    ensures k == 0 || DominantGrowth(f) >= s.salesGrowthThresholds[k]
    ensures forall j :: k < j < TierCount ==> DominantGrowth(f) < s.salesGrowthThresholds[j]
  {
    TierIndex(DominantGrowth(f), s.salesGrowthThresholds)
  }

  /** Assemble the report for form `f` under settings `s`. */
  function Calculate(f: FormData, s: Settings): (r: Report)
    requires CanCalculate(f, s)
    ensures r.name == f.name
    ensures r.annualGrowth == r.salesGrowth
    ensures r.salesGrowth * f.LastYearTotal() == (f.CurrentYearTotal() - f.LastYearTotal()) * 100.0
    ensures r.businessGrowth * f.lastYearSameMonthBookOfBusiness
         == (f.currentMonthBookOfBusiness - f.lastYearSameMonthBookOfBusiness) * 100.0
    ensures r.q1Growth * f.lastYearQ1Sales == (f.currentYearQ1Sales - f.lastYearQ1Sales) * 100.0
    ensures r.q2Growth * f.lastYearQ2Sales == (f.currentYearQ2Sales - f.lastYearQ2Sales) * 100.0
    ensures r.q3Growth * f.lastYearQ3Sales == (f.currentYearQ3Sales - f.lastYearQ3Sales) * 100.0
    ensures r.q4Growth * f.lastYearQ4Sales == (f.currentYearQ4Sales - f.lastYearQ4Sales) * 100.0
    ensures r.bonusPercentage == s.bonusPercentages[SelectedTier(f, s)]
    ensures r.CategoryBonuses() == Split.Distribute(r.bonusPercentage, s.Multipliers())
    ensures r.totalBonus == r.bonusPercentage
  {
    var salesGrowth := SalesGrowth(f);
    var businessGrowth := BusinessGrowth(f);
    var bonusPercentage := s.bonusPercentages[TierIndex(Max(salesGrowth, businessGrowth), s.salesGrowthThresholds)];
    var shares := Split.Distribute(bonusPercentage, s.Multipliers());
    Report(
      f.name,
      salesGrowth,
      businessGrowth,
      bonusPercentage,
      shares.retainedClients,
      shares.newClients,
      shares.clientsManaged,
      shares.policies,
      shares.retainedClients + shares.newClients + shares.clientsManaged + shares.policies,
      Growth(f.currentYearQ1Sales, f.lastYearQ1Sales),
      Growth(f.currentYearQ2Sales, f.lastYearQ2Sales),
      Growth(f.currentYearQ3Sales, f.lastYearQ3Sales),
      Growth(f.currentYearQ4Sales, f.lastYearQ4Sales),
      salesGrowth)
  }

  /** Each category's bonus stands to the tier percentage as its multiplier
      stands to the multiplier total. */
  lemma CategoryBonusProportional(f: FormData, s: Settings, c: Split.Category)
    requires CanCalculate(f, s)
    ensures Calculate(f, s).CategoryBonuses().Get(c) * s.Multipliers().Sum()
         == s.Multipliers().Get(c) * Calculate(f, s).bonusPercentage
  {
  }

  /** With non-negative multipliers of positive total and non-negative tier
      percentages, every category bonus lies between 0 and the selected
      percentage. */
  lemma CategoryBonusBounds(f: FormData, s: Settings, c: Split.Category)
    requires CanCalculate(f, s)
    requires s.retainedClientsBonusMultiplier >= 0.0 && s.newClientsBonusMultiplier >= 0.0
    requires s.clientsManagedBonusMultiplier >= 0.0 && s.policiesBonusMultiplier >= 0.0
    requires s.Multipliers().Sum() > 0.0
    requires forall i :: 0 <= i < |s.bonusPercentages| ==> s.bonusPercentages[i] >= 0.0
    ensures 0.0 <= Calculate(f, s).CategoryBonuses().Get(c) <= Calculate(f, s).bonusPercentage
  {
    var r := Calculate(f, s);
    assert r.CategoryBonuses() == Split.Distribute(r.bonusPercentage, s.Multipliers());
    Split.ShareBounds(r.bonusPercentage, s.Multipliers(), c);
  }

  /** Annual growth is the average of the four quarterly growths weighted by
      last year's quarterly sales. */
  lemma AnnualGrowthIsWeightedMean(f: FormData, s: Settings)
    requires CanCalculate(f, s)
    ensures var r := Calculate(f, s);
            r.annualGrowth * f.LastYearTotal()
            == r.q1Growth * f.lastYearQ1Sales + r.q2Growth * f.lastYearQ2Sales
             + r.q3Growth * f.lastYearQ3Sales + r.q4Growth * f.lastYearQ4Sales
  {
  }

  /** The business-growth thresholds and the configured total bonus
      percentage are never read: changing them leaves the report unchanged. */
  lemma CalculateIgnoresUnreadSettings(f: FormData, s: Settings, business: seq<real>, total: real)
    requires CanCalculate(f, s)
    ensures var s' := s.(businessGrowthThresholds := business, totalBonusPercentage := total);
            CanCalculate(f, s') && Calculate(f, s') == Calculate(f, s)
  {
  }

  /** Threshold 0 of the sales-growth thresholds is never examined. */
  lemma CalculateIgnoresFirstThreshold(f: FormData, s: Settings, x: real)
    requires CanCalculate(f, s)
    ensures var s' := s.(salesGrowthThresholds := s.salesGrowthThresholds[0 := x]);
            CanCalculate(f, s') && Calculate(f, s') == Calculate(f, s)
  {
    TierIgnoresFirstThreshold(DominantGrowth(f), s.salesGrowthThresholds, x);
  }

  /** Client and policy counts are never read: forms that agree on the name,
      sales and book of business give the same report. */
  lemma CalculateIgnoresCounts(f: FormData, g: FormData, s: Settings)
    requires CanCalculate(f, s)
    requires f.SameCalculationInputs(g)
    ensures CanCalculate(g, s) && Calculate(g, s) == Calculate(f, s)
  {
  }

  /** Using the larger growth figure is the same as taking the better of the
      tiers that sales growth and business growth reach on their own. */
  lemma TierIsBetterOfBoth(f: FormData, s: Settings)
    requires f.DominantDefined() && |s.salesGrowthThresholds| >= TierCount
    ensures var ks, kb := TierIndex(SalesGrowth(f), s.salesGrowthThresholds),
                          TierIndex(BusinessGrowth(f), s.salesGrowthThresholds);
            SelectedTier(f, s) == if ks >= kb then ks else kb
  {
  }

  /** Neither growth figure lower means the tier is not lower: the tier scan
      is monotone in both figures. */
  lemma MoreGrowthNeverLowerTier(f: FormData, g: FormData, s: Settings)
    requires f.DominantDefined() && g.DominantDefined()
    requires |s.salesGrowthThresholds| >= TierCount
    requires SalesGrowth(f) <= SalesGrowth(g)
    requires BusinessGrowth(f) <= BusinessGrowth(g)
    ensures SelectedTier(f, s) <= SelectedTier(g, s)
  {
  }

  /** Higher current-year sales against the same positive last-year total, with
      the book of business unchanged, never lower the tier. */
  lemma MoreSalesNeverLowerTier(f: FormData, g: FormData, s: Settings)
    requires |s.salesGrowthThresholds| >= TierCount
    requires f.lastYearSameMonthBookOfBusiness != 0.0
    requires f.LastYearTotal() > 0.0 && g.LastYearTotal() == f.LastYearTotal()
    requires f.CurrentYearTotal() <= g.CurrentYearTotal()
    requires g.currentMonthBookOfBusiness == f.currentMonthBookOfBusiness
    requires g.lastYearSameMonthBookOfBusiness == f.lastYearSameMonthBookOfBusiness
    ensures SelectedTier(f, s) <= SelectedTier(g, s)
  {
    GrowthMonotone(f.CurrentYearTotal(), g.CurrentYearTotal(), f.LastYearTotal());
    MoreGrowthNeverLowerTier(f, g, s);
  }

  /** The bonus percentage depends only on the dominant growth, the
      sales-growth thresholds and the bonus percentages. */
  lemma PercentageDependsOnlyOnDominant(f: FormData, g: FormData, s: Settings, t: Settings)
    requires CanCalculate(f, s) && CanCalculate(g, t)
    requires DominantGrowth(f) == DominantGrowth(g)
    requires s.salesGrowthThresholds == t.salesGrowthThresholds
    requires s.bonusPercentages == t.bonusPercentages
    ensures Calculate(f, s).bonusPercentage == Calculate(g, t).bonusPercentage
  {
  }

  /** The starting form under the default settings: sales grew by 40000/460000
      and the book of business by 275000/2225000 (about 12.36 per cent), which
      clears the thresholds 5 and 10 but not 15, so tier 2 pays 3 per cent. */
  lemma InitialReport()
    ensures CanCalculate(InitialForm, DefaultSettings)
    ensures Calculate(InitialForm, DefaultSettings).bonusPercentage == 3.0
    ensures Calculate(InitialForm, DefaultSettings).totalBonus == 3.0
  {
    InitialFormDefined();
    var f, s := InitialForm, DefaultSettings;
    assert BusinessGrowth(f) * 2225000.0 == 275000.0 * 100.0;
    assert SalesGrowth(f) * 460000.0 == 40000.0 * 100.0;
    assert BusinessGrowth(f) >= 10.0 && BusinessGrowth(f) < 15.0;
    assert SalesGrowth(f) < 10.0;
    assert DominantGrowth(f) == BusinessGrowth(f);
    HighestMetUnique(DominantGrowth(f), s.salesGrowthThresholds, TierCount - 1, 2);
  }
}

=== FILE: settings.dfy ===
/** The calculator's configurable settings, their defaults, and the
    one-slot updates the settings dialog makes. */
module BonusSettings {
  import Tiers
  import Split

  datatype Settings = Settings(
    bonusPercentages: seq<real>,
    salesGrowthThresholds: seq<real>,
    businessGrowthThresholds: seq<real>,
    retainedClientsBonusMultiplier: real,
    newClientsBonusMultiplier: real,
    clientsManagedBonusMultiplier: real,
    policiesBonusMultiplier: real,
    totalBonusPercentage: real)
  {
    /** Every tier array has the five slots the settings dialog shows. */
    predicate WellFormed()
    {
      && |bonusPercentages| == Tiers.TierCount
      && |salesGrowthThresholds| == Tiers.TierCount
      && |businessGrowthThresholds| == Tiers.TierCount
    }

    /** The two arrays the calculation indexes reach slot 4; the
        business-growth thresholds are never read, so their length is free. */
    predicate Calculable()
    {
      |bonusPercentages| >= Tiers.TierCount && |salesGrowthThresholds| >= Tiers.TierCount
    }

    /** The four category multipliers, as weights for the proportional split. */
    function Multipliers(): Split.PerCategory
    {
      Split.PerCategory(retainedClientsBonusMultiplier, newClientsBonusMultiplier,
                        clientsManagedBonusMultiplier, policiesBonusMultiplier)
    }
  }

  /** The values the component starts with and restores on "clear settings". */
  const DefaultSettings := Settings(
    [1.0, 2.0, 3.0, 4.0, 5.0],
    [0.0, 5.0, 10.0, 15.0, 20.0],
    [0.0, 2.5, 5.0, 7.5, 10.0],
    1.0, 1.5, 1.25, 1.2, 5.0)

  /** The defaults are settings under which the calculation is defined, with
      tier arrays in increasing order. */
  lemma DefaultsWellFormed()
    ensures DefaultSettings.WellFormed() && DefaultSettings.Calculable()
    ensures DefaultSettings.Multipliers().Sum() == 4.95
    ensures Tiers.NonDecreasing(DefaultSettings.bonusPercentages)
    ensures Tiers.NonDecreasing(DefaultSettings.salesGrowthThresholds)
    ensures Tiers.NonDecreasing(DefaultSettings.businessGrowthThresholds)
  {
  }

  /** The three tier arrays and the five scalar settings, by name. */
  datatype ArrayField = BonusPercentages | SalesGrowthThresholds | BusinessGrowthThresholds
  datatype ScalarField =
    | RetainedClientsBonusMultiplier
    | NewClientsBonusMultiplier
    | ClientsManagedBonusMultiplier
    | PoliciesBonusMultiplier
    | TotalBonusPercentage

  /** One edit from the settings dialog: a slot of a tier array, or a scalar. */
  datatype SettingsChange =
    | SetElement(target: ArrayField, index: nat, value: real)
    | SetScalar(field: ScalarField, value: real)

  function ArrayOf(s: Settings, a: ArrayField): seq<real>
  {
    match a
    case BonusPercentages => s.bonusPercentages
    case SalesGrowthThresholds => s.salesGrowthThresholds
    case BusinessGrowthThresholds => s.businessGrowthThresholds
  }

  function ScalarOf(s: Settings, f: ScalarField): real
  {
    match f
    case RetainedClientsBonusMultiplier => s.retainedClientsBonusMultiplier
    case NewClientsBonusMultiplier => s.newClientsBonusMultiplier
    case ClientsManagedBonusMultiplier => s.clientsManagedBonusMultiplier
    case PoliciesBonusMultiplier => s.policiesBonusMultiplier
    case TotalBonusPercentage => s.totalBonusPercentage
  }

  /** An element edit must name an existing slot. */
  predicate Applicable(s: Settings, ch: SettingsChange)
  {
    ch.SetElement? ==> ch.index < |ArrayOf(s, ch.target)|
  }

  /** Apply one edit: copy the settings, replacing only the named slot. */
  function ApplyChange(s: Settings, ch: SettingsChange): (s': Settings)
    requires Applicable(s, ch)
    ensures ch.SetElement? ==>
      && |ArrayOf(s', ch.target)| == |ArrayOf(s, ch.target)|
      && ArrayOf(s', ch.target)[ch.index] == ch.value
      && (forall j :: 0 <= j < |ArrayOf(s, ch.target)| && j != ch.index ==> ArrayOf(s', ch.target)[j] == ArrayOf(s, ch.target)[j])
      && (forall a :: a != ch.target ==> ArrayOf(s', a) == ArrayOf(s, a))
      && (forall f :: ScalarOf(s', f) == ScalarOf(s, f))
    ensures ch.SetScalar? ==>
      && ScalarOf(s', ch.field) == ch.value
      && (forall f :: f != ch.field ==> ScalarOf(s', f) == ScalarOf(s, f))
      && (forall a :: ArrayOf(s', a) == ArrayOf(s, a))
  {
    match ch
    case SetElement(a, i, v) =>
      (match a
       case BonusPercentages => s.(bonusPercentages := s.bonusPercentages[i := v])
       case SalesGrowthThresholds => s.(salesGrowthThresholds := s.salesGrowthThresholds[i := v])
       case BusinessGrowthThresholds => s.(businessGrowthThresholds := s.businessGrowthThresholds[i := v]))
    case SetScalar(f, v) =>
      (match f
       case RetainedClientsBonusMultiplier => s.(retainedClientsBonusMultiplier := v)
       case NewClientsBonusMultiplier => s.(newClientsBonusMultiplier := v)
       case ClientsManagedBonusMultiplier => s.(clientsManagedBonusMultiplier := v)
       case PoliciesBonusMultiplier => s.(policiesBonusMultiplier := v)
       case TotalBonusPercentage => s.(totalBonusPercentage := v))
  }

  /** An edit never changes the length of an array, so well-formed settings
      stay well-formed. */
  lemma ApplyChangeKeepsWellFormed(s: Settings, ch: SettingsChange)
    requires Applicable(s, ch)
    ensures s.WellFormed() ==> ApplyChange(s, ch).WellFormed()
    ensures s.Calculable() ==> ApplyChange(s, ch).Calculable()
  {
  }

  /** Writing back the value a slot already holds changes nothing. */
  lemma ApplyCurrentValueIsIdentity(s: Settings, ch: SettingsChange)
    requires Applicable(s, ch)
    requires ch.SetElement? ==> ch.value == ArrayOf(s, ch.target)[ch.index]
    requires ch.SetScalar? ==> ch.value == ScalarOf(s, ch.field)
    ensures ApplyChange(s, ch) == s
  {
  }

  /** Two edits of the same slot: the later one wins. */
  lemma LastChangeWins(s: Settings, ch1: SettingsChange, ch2: SettingsChange)
    requires Applicable(s, ch1)
    requires ch1.SetElement? <==> ch2.SetElement?
    requires ch1.SetElement? ==> ch1.target == ch2.target && ch1.index == ch2.index
    requires ch1.SetScalar? ==> ch1.field == ch2.field
    ensures Applicable(ApplyChange(s, ch1), ch2)
    ensures ApplyChange(ApplyChange(s, ch1), ch2) == ApplyChange(s, ch2)
  {
  }

  /** Edits of different slots commute. */
  lemma DistinctChangesCommute(s: Settings, ch1: SettingsChange, ch2: SettingsChange)
    requires Applicable(s, ch1) && Applicable(s, ch2)
    requires ch1.SetElement? && ch2.SetElement? ==> ch1.target != ch2.target || ch1.index != ch2.index
    requires ch1.SetScalar? && ch2.SetScalar? ==> ch1.field != ch2.field
    ensures Applicable(ApplyChange(s, ch1), ch2) && Applicable(ApplyChange(s, ch2), ch1)
    ensures ApplyChange(ApplyChange(s, ch1), ch2) == ApplyChange(ApplyChange(s, ch2), ch1)
  {
  }
}

=== FILE: split.dfy ===
/** Division of the selected tier percentage across the four bonus
    categories, in proportion to the configured multipliers. */
module Split {

  datatype Category = RetainedClients | NewClients | ClientsManaged | Policies

  /** One real per category: used both for the multiplier weights and for
      the resulting shares. */
  datatype PerCategory = PerCategory(retainedClients: real, newClients: real, clientsManaged: real, policies: real)
  {
    function Get(c: Category): real
    {
      match c
      case RetainedClients => retainedClients
      case NewClients => newClients
      case ClientsManaged => clientsManaged
      case Policies => policies
    }

    function Sum(): real
    {
      retainedClients + newClients + clientsManaged + policies
    }
  }

  /** One category's share: its weight over the weight total, times the tier
      percentage. */
  function Share(weight: real, total: real, percentage: real): (s: real)
    requires total != 0.0
  {
    weight / total * percentage
  }

  /** The four shares of `percentage`. They add back up to exactly the
      percentage that was split. */
  function Distribute(percentage: real, weights: PerCategory): (shares: PerCategory)
    requires weights.Sum() != 0.0
    ensures shares.Sum() == percentage
  {
    var total := weights.Sum();
    SharesSum(percentage, weights);
    PerCategory(Share(weights.retainedClients, total, percentage),
                Share(weights.newClients, total, percentage),
                Share(weights.clientsManaged, total, percentage),
                Share(weights.policies, total, percentage))
  }

  /** The four fractions of the total add up to one, so the four shares
      add back up to the percentage. */
  lemma SharesSum(percentage: real, weights: PerCategory)
    requires weights.Sum() != 0.0
    ensures var total := weights.Sum();
            Share(weights.retainedClients, total, percentage) + Share(weights.newClients, total, percentage)
            + Share(weights.clientsManaged, total, percentage) + Share(weights.policies, total, percentage)
            == percentage
  {
  }

  /** Each share stands to the percentage as its multiplier stands to the
      multiplier total. */
  lemma ShareProportional(percentage: real, weights: PerCategory, c: Category)
    requires weights.Sum() != 0.0
    ensures Distribute(percentage, weights).Get(c) * weights.Sum() == weights.Get(c) * percentage
  {
  }

  /** A weight between 0 and the total takes a fraction between 0 and 1. */
  lemma FractionBounds(weight: real, total: real)
    requires 0.0 <= weight <= total
    requires total > 0.0
    ensures 0.0 <= weight / total <= 1.0
  {
  }

  /** With non-negative weights of positive total, each share of a
      non-negative percentage lies between 0 and the percentage. */
  lemma ShareBounds(percentage: real, weights: PerCategory, c: Category)
    requires weights.retainedClients >= 0.0 && weights.newClients >= 0.0
    requires weights.clientsManaged >= 0.0 && weights.policies >= 0.0
    requires weights.Sum() > 0.0
    requires percentage >= 0.0
    ensures 0.0 <= Distribute(percentage, weights).Get(c) <= percentage
  {
    var w, total := weights.Get(c), weights.Sum();
    FractionBounds(w, total);
    var q := w / total;
    assert Distribute(percentage, weights).Get(c) == q * percentage;
    assert q * percentage <= 1.0 * percentage by {
      assert (1.0 - q) * percentage >= 0.0;
    }
  }

  /** Any two categories split in the ratio of their multipliers. */
  lemma SharesInRatio(percentage: real, weights: PerCategory, a: Category, b: Category)
    requires weights.Sum() != 0.0
    ensures Distribute(percentage, weights).Get(a) * weights.Get(b)
         == Distribute(percentage, weights).Get(b) * weights.Get(a)
  {
    var shares, total := Distribute(percentage, weights), weights.Sum();
    var sa, sb, wa, wb := shares.Get(a), shares.Get(b), weights.Get(a), weights.Get(b);
    assert sa == Share(wa, total, percentage) by { DistributeGet(percentage, weights, a); }
    assert sb == Share(wb, total, percentage) by { DistributeGet(percentage, weights, b); }
    ShareRatio(wa, wb, total, percentage);
  }

  lemma DistributeGet(percentage: real, weights: PerCategory, c: Category)
    requires weights.Sum() != 0.0
    ensures Distribute(percentage, weights).Get(c) == Share(weights.Get(c), weights.Sum(), percentage)
  {
  }

  lemma ShareRatio(wa: real, wb: real, total: real, percentage: real)
    requires total != 0.0
    ensures Share(wa, total, percentage) * wb == Share(wb, total, percentage) * wa
  {
  }
}

=== FILE: tiers.dfy ===
/** Selection of the bonus tier from the dominant growth figure and the
    five configured sales-growth thresholds. */
module Tiers {

  /** Number of tiers: the calculator scans indices 1 to 4 of five-slot arrays. */
  const TierCount: nat := 5

  function Max(a: real, b: real): (m: real)
    ensures m >= a && m >= b
    ensures m == a || m == b
  {
    if a >= b then a else b
  }

  /** Reference definition: the highest index in 1..k whose threshold
      `growth` meets, or 0 when none does. Index 0 is never examined. */
  function HighestMet(growth: real, thresholds: seq<real>, k: nat): (r: nat)
    requires k < |thresholds|
    ensures r <= k
    ensures r == 0 || growth >= thresholds[r]
    ensures forall j :: r < j <= k ==> growth < thresholds[j]
    decreases k
  {
    if k == 0 then 0
    else if growth >= thresholds[k] then k
    else HighestMet(growth, thresholds, k - 1)
  }

  /** The tier that `growth` reaches against the thresholds: the highest
      index 1 to 4 whose threshold it meets, else 0. Slots past index 4 are
      never read. */
  function TierIndex(growth: real, thresholds: seq<real>): (k: nat)
    requires |thresholds| >= TierCount
    ensures k < TierCount
    ensures k == 0 || growth >= thresholds[k]
    ensures forall j :: k < j < TierCount ==> growth < thresholds[j]
  {
    HighestMet(growth, thresholds, TierCount - 1)
  }

  /** A candidate tier that meets its own threshold (or is 0) and beats every
      higher one is the tier. */
  lemma HighestMetUnique(growth: real, thresholds: seq<real>, k: nat, r: nat)
    requires k < |thresholds|
    requires r <= k
    requires r == 0 || growth >= thresholds[r]
    requires forall j :: r < j <= k ==> growth < thresholds[j]
    ensures r == HighestMet(growth, thresholds, k)
  {
  }

  /** The scan as the calculator runs it: start at tier 0 and let every later
      index whose threshold is met overwrite the choice. Returns the tier
      reached together with its bonus percentage. */
  method SelectBonusPercentage(growth: real, thresholds: seq<real>, percentages: seq<real>)
    returns (tier: nat, percentage: real)
    requires |thresholds| >= TierCount && |percentages| >= TierCount
    ensures tier == TierIndex(growth, thresholds)
    ensures percentage == percentages[tier]
  {
    tier := 0;
    percentage := percentages[0];
    for i := 1 to TierCount
      invariant tier < i
      invariant tier == 0 || growth >= thresholds[tier]
      invariant forall j :: tier < j < i ==> growth < thresholds[j]
      invariant percentage == percentages[tier]
    {
      if growth >= thresholds[i] {
        tier := i;
        percentage := percentages[i];
      }
    }
    HighestMetUnique(growth, thresholds, TierCount - 1, tier);
  }

  /** Threshold 0 is never examined: replacing it does not move any tier. */
  lemma {:induction false} HighestMetIgnoresFirst(growth: real, thresholds: seq<real>, k: nat, x: real)
    requires k < |thresholds|
    ensures HighestMet(growth, thresholds[0 := x], k) == HighestMet(growth, thresholds, k)
    decreases k
  {
    if k > 0 {
      HighestMetIgnoresFirst(growth, thresholds, k - 1, x);
    }
  }

  lemma TierIgnoresFirstThreshold(growth: real, thresholds: seq<real>, x: real)
    requires |thresholds| >= TierCount
    ensures TierIndex(growth, thresholds[0 := x]) == TierIndex(growth, thresholds)
  {
    HighestMetIgnoresFirst(growth, thresholds, TierCount - 1, x);
  }

  /** More growth never lowers the tier, whatever order the thresholds are in. */
  lemma TierMonotone(g1: real, g2: real, thresholds: seq<real>)
    requires |thresholds| >= TierCount
    requires g1 <= g2
    ensures TierIndex(g1, thresholds) <= TierIndex(g2, thresholds)
  {
  }

  ghost predicate NonDecreasing(s: seq<real>)
  {
    forall i, j :: 0 <= i <= j < |s| ==> s[i] <= s[j]
  }

  /** With non-decreasing bonus percentages, more growth never pays a lower
      percentage. */
  lemma PercentageMonotone(g1: real, g2: real, thresholds: seq<real>, percentages: seq<real>)
    requires |thresholds| >= TierCount && |percentages| >= TierCount
    requires NonDecreasing(percentages)
    requires g1 <= g2
    ensures percentages[TierIndex(g1, thresholds)] <= percentages[TierIndex(g2, thresholds)]
  {
  }

  /** Testing the larger of two growth figures reaches the better of the two
      tiers the figures reach on their own. */
  lemma TierOfMax(a: real, b: real, thresholds: seq<real>)
    requires |thresholds| >= TierCount
    ensures TierIndex(Max(a, b), thresholds) == if TierIndex(a, thresholds) >= TierIndex(b, thresholds)
                                                 then TierIndex(a, thresholds) else TierIndex(b, thresholds)
  {
  }

  /** With non-decreasing thresholds, tier k (1 to 4) is reached exactly when
      growth meets threshold k. */
  lemma TierReachedIff(growth: real, thresholds: seq<real>, k: nat)
    requires |thresholds| >= TierCount
    requires NonDecreasing(thresholds)
    requires 1 <= k < TierCount
    ensures TierIndex(growth, thresholds) >= k <==> growth >= thresholds[k]
  {
  }
}

=== FILE: wrappers.dfy ===
/** The optional value used for an absent report and an unparseable number. */
module Wrappers {

  datatype Option<T> = None | Some(value: T)
}
